=== FILE: README.md ===
# Email ingestion and classification pipeline, modelled in Dafny

This project models the `/process-emails` handler of the loan-email
classifier server (`code/src/server/server.cjs`). The handler does the
following:

- lists the email folder and keeps the `.eml` and `.msg` files;
- parses each file with the parser for its container format, with
  defaults for an absent or empty subject, body or attachment list;
- extracts text from each attachment: PDF, Word and image attachments go to
  their extractors, any other type gives the empty string;
- joins the body and the attachment texts with newlines;
- asks the language model five questions about that text, in a fixed
  order: request type, sentiment, intent, entities, spam;
- builds one record per file by object spread, and answers with the
  records in listing order, or with one generic error if anything failed.

All foreign code is a function-typed field of an environment datatype.
This covers the file decoders, `Buffer.from`, pdf-parse, mammoth,
tesseract.js, the chat completion and `JSON.parse`.

- The decoders, `Buffer.from`, the chat completion and `JSON.parse` return
  a `Result`.
- The three extractors return an `Async`, which tells a synchronous throw
  from a rejected promise and a resolved one.
- The directory listing is an input `Result`.

Each call to a decoder, an extractor or the language model is recorded as
a `Call` in the result of each step. This is how the model states which of
those calls run, in what order, and that none runs after the first
failure. Calls to `Buffer.from` and `JSON.parse` are not recorded.
`Buffer.from` runs just before the extractor it feeds, and `JSON.parse`
runs just after the request whose answer it decodes.

Modules:

- `Results`: Option, Result and the JavaScript `Error`.
- `JsText`: `endsWith`, `startsWith`, `includes`, `trim` and string `||`.
- `Effects`: the external calls, the async outcome of a library call, and
  the sequential all-or-nothing fold `Sequence` that the handler uses three
  times.
- `Listing`: `getEmailFiles`.
- `Parsing`: `parseEml` and `parseMsg`.
- `Extraction`: `extractAttachmentText`.
- `Json`: parsed JSON values, and which own properties an object spread copies.
- `Classification`: the five classifier functions.
- `Records`: the result object.
- `Pipeline`: the handler.
- `Scenarios`: whole-handler runs with stub oracles.

Extraction failures are handled unevenly:

- The PDF branch has a `catch` whose comment (server.cjs:61) says an empty
  string is returned when parsing fails. Only a synchronous throw reaches
  that `catch`. A rejected pdf-parse promise escapes the `try` and fails
  the whole batch (see Findings).
- The Word and image branches (server.cjs:63-66) catch nothing, so their
  failures fail the whole batch.

## Model

| member | source | states |
|---|---|---|
| Listing.EmailFiles | code/src/server/server.cjs:20-22 | every kept name ends in `.eml` or `.msg`, and no more names are kept than were listed |
| Listing.EmailFilesContents | code/src/server/server.cjs:21 | a name is kept exactly when it ends in `.eml` or `.msg`, as many times as it is listed |
| Listing.EmailFilesAppend | code/src/server/server.cjs:21 | filtering a concatenated listing is concatenating the filtered parts, so listing order is kept and nothing is inserted |
| Listing.EmailFilesSingle | code/src/server/server.cjs:21 | a single name is kept exactly when it ends in one of the two extensions |
| Listing.UpperCaseExtensionExcluded | code/src/server/server.cjs:21 | the extension test is case-sensitive: `a.EML` and `d.MSG` are dropped, and so are `e.txt` and `f.eml.bak` |
| Listing.GetEmailFiles | code/src/server/server.cjs:20-22 | the one-pass filter loop returns exactly the filtered listing |
| JsText.OrElse | code/src/server/server.cjs:31 | `a \|\| "literal"` yields `a` when it is present and non-empty, else the literal, so the result is never empty |
| JsText.Or | code/src/server/server.cjs:32 | `a \|\| b` is truthy exactly when one of them is, yields `a` when `a` is truthy and `b` otherwise |
| JsText.Trim | code/src/server/server.cjs:98 | `String.prototype.trim`: strip white space from the start, then from the end; characterised by `JsText.TrimSpec`, `JsText.TrimBounds` and `JsText.TrimRecoversCore` |
| JsText.TrimSpec | code/src/server/server.cjs:98 | `trim` removes only ECMAScript white space, only from the two ends, and leaves neither end as white space |
| JsText.TrimBounds | code/src/server/server.cjs:148 | `trim` keeps one slice of its input: everything before the slice and after it is white space, and the slice neither starts nor ends with white space |
| JsText.TrimRecoversCore | code/src/server/server.cjs:119 | a core that neither starts nor ends with white space, wrapped in white space, trims to exactly that core |
| Parsing.ParseEml | code/src/server/server.cjs:24-38 | parsing fails exactly when decoding fails, and then the message is `Failed to parse EML file: ` plus the decoder's message; a parsed document has a non-empty subject and body, and exactly the decoder's attachments in their order, or none when the decoder reports none |
| Parsing.EmlSubjectDefault | code/src/server/server.cjs:31 | the subject is the source subject when it is non-empty, else exactly `No Subject`; an empty subject counts as absent |
| Parsing.EmlBodyDefault | code/src/server/server.cjs:32 | the body is the text part if non-empty, else the HTML part if non-empty, else `No Body` |
| Parsing.AttachmentsOrEmpty | code/src/server/server.cjs:33 | a missing attachment list becomes the empty list, and a present one is kept as it is |
| Parsing.ParseMsg | code/src/server/server.cjs:42-52 | MSG decoding errors escape unchanged (no prefix); a parsed document has a non-empty subject and body, and exactly the decoder's attachments in their order, or none when the decoder reports none |
| Parsing.MsgDefaults | code/src/server/server.cjs:48-50 | the MSG subject falls back to `No Subject` and the body to `No Body` when absent or empty, and the attachments to `[]` |
| Parsing.EmlFailureWrapped | code/src/server/server.cjs:35-37 | any decoder error becomes an error whose message is the fixed prefix followed by the original message, and no document |
| Extraction.RouteOf | code/src/server/server.cjs:56-65 | the three content-type tests in the source's order; characterised by `Extraction.RoutePrecedence` |
| Extraction.RoutePrecedence | code/src/server/server.cjs:56-68 | `pdf` anywhere wins; otherwise `msword` anywhere; otherwise an `image/` prefix; otherwise no extractor; each case as an if-and-only-if |
| Extraction.PdfBeatsImage | code/src/server/server.cjs:56-65 | `image/pdf` goes to the PDF extractor, although it also starts with `image/` |
| Extraction.WordExample | code/src/server/server.cjs:63 | `application/msword` goes to the Word extractor |
| Extraction.ImageExamples | code/src/server/server.cjs:65 | `image/png` goes to OCR, and `IMAGE/PNG` goes nowhere (the prefix test is case-sensitive) |
| Extraction.Awaiting | code/src/server/server.cjs:64-66 | an un-caught extractor call succeeds exactly when its promise resolves, with the resolved text, and makes that one call |
| Extraction.ExtractAttachmentText | code/src/server/server.cjs:55-69 | the extractor the route names is called exactly when the content type names one and the payload decodes; it gets the decoded payload, and no other call is made. An attachment without a content type fails on `.includes` and calls nothing. A resolved PDF parse yields its text under either PDF policy |
| Extraction.UnsupportedTypeIsEmpty | code/src/server/server.cjs:68 | a type that matches no test yields `""` and invokes no extractor, whatever the extractors would do |
| Extraction.OnlyRoutedExtractorRuns | code/src/server/server.cjs:55-69 | the only call ever made is the extractor the route names, and it is given the decoded payload |
| Extraction.PdfCatchesOnlySyncThrows | code/src/server/server.cjs:56-62 | in the PDF branch, a base64 decoding throw or a synchronous pdf-parse throw yields `""`, but a rejected promise fails with its reason |
| Extraction.PdfRejectionEscapes | code/src/server/server.cjs:57-62 | a concrete PDF attachment whose parse rejects fails its extraction as written |
| Extraction.PdfNeverFailsWhenAwaited | code/src/server/server.cjs:57-62 | with the promise awaited inside the `try`, a PDF attachment never fails; it yields the parsed text or `""` |
| Extraction.WordFailuresPropagate | code/src/server/server.cjs:63-64 | Word extraction succeeds exactly when the payload decodes and mammoth resolves, and then yields mammoth's text |
| Extraction.ImageFailuresPropagate | code/src/server/server.cjs:65-66 | OCR extraction succeeds exactly when the payload decodes and tesseract resolves, and then yields its text |
| Json.Indexed | code/src/server/server.cjs:221 | an array or string spread contributes only decimal index keys, and includes the last index |
| Json.IndexedHasIndex | code/src/server/server.cjs:221 | an array or string spread has the index key of every position |
| Json.IndexedKeyNamesIndex | code/src/server/server.cjs:221 | every key an array or string spread contributes is the index key of one of its positions |
| Json.Spread | code/src/server/server.cjs:221 | the own properties `...classification` copies: an object's fields, an array's or string's index keys, nothing from a primitive; characterised by `Json.SpreadOfNonObject` and the `Json.Indexed` lemmas |
| Json.SpreadOfNonObject | code/src/server/server.cjs:221 | a JSON value that is not an object contributes only index keys to a spread |
| Classification.Query | code/src/server/server.cjs:71-196 | each classifier makes exactly one request, for its own task and on the given text, and a structured answer is decoded JSON exactly for the request and entities tasks |
| Classification.QueryAnswers | code/src/server/server.cjs:98-195 | a failed completion fails the task; a free-text answer is the trimmed completion verbatim; a structured answer is the decoded trimmed completion, and a decode failure is an error, not a default |
| Classification.QueryAll | code/src/server/server.cjs:214-218 | the tasks succeed exactly when each one does, and then make one request per task, in task order, all on the same text |
| Classification.QueryCalls | code/src/server/server.cjs:214-218 | the requests of a run of tasks are one request per task, in order, on one text |
| Classification.QueryAllFailure | code/src/server/server.cjs:214-218 | a failed run failed at the first unanswered task, with that task's error, and asked no task after it |
| Classification.QueryOrder | code/src/server/server.cjs:214-218 | the five tasks in their fixed order succeed exactly when each is answered, and then make the five requests in order and give one answer per task, in order |
| Classification.ClassifyAll | code/src/server/server.cjs:214-218 | classification succeeds exactly when all five tasks do, and then the requests were request, sentiment, intent, entities, spam, all on the same text |
| Classification.ClassifyAllFields | code/src/server/server.cjs:214-226 | each of the five answers lands in its own field |
| Classification.ClassifyAllFailure | code/src/server/server.cjs:214-218 | a failed classification asked the fixed-order prefix up to the first failing task and nothing after it |
| Records.Assemble | code/src/server/server.cjs:219-226 | the record has `subject`, the spread keys and the four trailing keys, and no other key. The four trailing keys hold the classifier answers. `subject` is the classification's own `subject` if it has one, else the parsed subject. Every other spread key keeps its value |
| Records.NonObjectKeepsSubject | code/src/server/server.cjs:219-226 | a classification that is not a JSON object cannot override the subject or add any named key |
| Records.ClassificationOverridesSubject | code/src/server/server.cjs:220-222 | a `subject` key in the classification replaces the parsed subject, while its `sentiment` key is itself replaced |
| Effects.Sequence | code/src/server/server.cjs:205-228 | a sequential run succeeds exactly when every step does, and then has one result per element, in order, and the calls of all steps in order |
| Effects.SequenceFailure | code/src/server/server.cjs:205-233 | a failed run failed at the first failing element, with its error. Its calls are those of the earlier elements followed by the failing one's, and nothing after |
| Effects.AllCallsAppend | code/src/server/server.cjs:205 | the calls of a concatenated run are the calls of the two parts, in order |
| Pipeline.ParseFile | code/src/server/server.cjs:207 | the parser is chosen by the `.eml` suffix alone: an `.eml` name gets the EML decoder and `parseEml`'s result, any other name the MSG decoder and `parseMsg`'s result, failures included; one decode call is made, and a parsed file has a non-empty subject and body |
| Pipeline.ListedNonEmlIsMsg | code/src/server/server.cjs:207 | a listed file that is not `.eml` is `.msg`, so `parseMsg` sees only MSG files |
| Pipeline.EmailText | code/src/server/server.cjs:209-212 | the classifier input: the body followed by a newline and the text of each attachment, in order; characterised by `Pipeline.AccumulateText`, `Pipeline.SeparatedSnoc` and `Pipeline.NoAttachmentsTextIsBody` |
| Pipeline.SeparatedSnoc | code/src/server/server.cjs:211 | appending an attachment text appends a newline and that text |
| Pipeline.NoAttachmentsTextIsBody | code/src/server/server.cjs:209 | with no attachments the classifier input is exactly the body |
| Pipeline.AccumulateText | code/src/server/server.cjs:209-212 | the concatenation loop yields the body followed by, for each attachment in order, a newline and its text |
| Pipeline.ProcessFile | code/src/server/server.cjs:205-228 | a file's first call is its decode. A file is processed exactly when it parses, every attachment's extraction succeeds, and all five classifier tasks succeed on the joined text |
| Pipeline.ProcessFileFailureCalls | code/src/server/server.cjs:207-218 | a failed file stops at its failing step: a failed parse made only its decode call, a failed extraction run made no request, and the classification calls are those of `ClassifyAll`, which stop at the first failing task |
| Pipeline.ProcessFileSuccess | code/src/server/server.cjs:206-226 | a processed file extracted every attachment in order and classified the joined text. Its record is assembled from the parsed subject and that classification. Its calls are decode, extractions, then the five requests |
| Pipeline.ProcessAll | code/src/server/server.cjs:202-228 | the batch succeeds exactly when every file does, and then holds one record per file, in listing order |
| Pipeline.ProcessEmails | code/src/server/server.cjs:200-234 | the only error body is `Failed to process emails`, with no records. A listing failure makes no call. On success there is one record per listed email file, in order |
| Pipeline.ProcessEmailsFailure | code/src/server/server.cjs:205-233 | on failure, the earlier files were processed in full and the first failing file ends the run. No later file is opened |
| Pipeline.AwaitedPdfAttachmentsNeverFail | code/src/server/server.cjs:57-62 | with the PDF promise awaited, attachments that are all PDFs never fail a file's extraction |
| Scenarios.CannedTrims | code/src/server/server.cjs:98 | the canned completions, padded with white space, trim to their cores |
| Scenarios.CannedClassification | code/src/server/server.cjs:214-218 | a stub model answering fixed text classifies any email to the same trimmed and decoded fields, after the five requests in order |
| Scenarios.OneEmlFile | code/src/server/server.cjs:206-226 | an EML file with an empty text part and no attachments is classified on its HTML part. Its record holds the parsed subject and the canned answers |
| Scenarios.OneEmlSteps | code/src/server/server.cjs:207-212 | that file decodes in one call, has nothing to extract, and its classifier input is the HTML part |
| Scenarios.OneEmlCalls | code/src/server/server.cjs:207-218 | that file's calls are its decode and the five requests in order |
| Scenarios.OneEmlResult | code/src/server/server.cjs:219-226 | that file's record is the assembly of the parsed subject and the canned classification |
| Scenarios.CannedAssembled | code/src/server/server.cjs:219-226 | the assembled canned record has exactly the six expected fields and values |
| Scenarios.OneEmlNoAttachments | code/src/server/server.cjs:200-229 | a folder with one EML file and one other file answers with exactly one record, and the other file is never opened |
| Scenarios.ThrowingMsgDecoderFailsBatch | code/src/server/server.cjs:230-233 | an MSG file whose read throws, listed first, fails the batch with the generic error, after one call, and the EML file after it is never opened |
| Scenarios.CorruptPdfFailsBatch | code/src/server/server.cjs:57-62 | as written, one rejected PDF parse fails the whole batch; with the promise awaited, the same folder is analysed |

## Left out

- The Express app, CORS, JSON body parsing, the route wiring, HTTP status
  codes, `res.json` serialisation and `app.listen` are transport. The
  handler is modelled as a function returning the response body.
- `dotenv`, the OpenAI client construction and the email folder path are
  configuration. `path.join` with the folder is not modelled: the decoders
  are given the bare file name.
- Filesystem reads and streams are I/O. The directory listing is a
  `Result` input, and each decoder's outcome for a file name is an oracle.
- eml-parser, msgreader, pdf-parse, mammoth, tesseract.js and `Buffer.from`
  are foreign libraries, modelled as uninterpreted oracles. For the
  extractors, the `.then` that picks out the text is part of the oracle.
  Whether msgreader throws on an unrecognised file or returns empty fields
  is up to the oracle: a failing `readMsg` fails the batch, and a
  succeeding one with absent fields gives `parseMsg`'s defaults.
- The prompt texts, model name, token limits and temperature are part of
  the language-model oracle. It receives only the task and the email text.
  The same holds for `response.choices[0].message.content` and its failure
  modes (missing choice or content).
- `JSON.parse` is an oracle from text to a JSON value. Numbers are carried
  as their text, so nothing is claimed about `confidenceScore`.
- `console.error` logging is output only and does not change any result.
- Promise scheduling is not modelled. The handler awaits each step in
  turn, so a sequential fold is faithful. The model keeps only the
  difference between a synchronous throw and a rejected promise, because
  the PDF `try` tells them apart.
- Properties that are not strings are not modelled, for example a subject
  that is an object. A present field is `Some(string)`, so JavaScript
  truthiness reduces to presence and non-emptiness.
- Records.Assemble: does not model the order of the record's keys, only
  which keys there are and their values. JavaScript lists array-index keys
  before all others, so the written order of the object literal is not the
  serialised order in every case.
- Json.Spread: spreading a JSON string gives one key per Dafny character
  (Unicode scalar value), where JavaScript uses UTF-16 code units.
- Json.Indexed: does not state that key `i` holds element `i`, only which
  keys there are (with `Json.IndexedHasIndex` and
  `Json.IndexedKeyNamesIndex`). The value claim would need the decimal
  rendering to be injective, and no property of the handler depends on it.
- Classification.Query: the language model is a function of the task and
  the text. Two files whose joined text is the same get the same answers,
  and both succeed or both fail. The real service samples at temperature
  0.3 (server.cjs:95, 116, 146, 171, 192), so a run where the same question
  gets two different answers cannot be represented. The decoders and
  extractors are likewise functions of their input.
- The UI (`code/src/App.jsx`) and the build configuration (`vite.config.js`)
  are not part of this model.

## Findings

| source | as written | input that shows it | evidently intended | confidence | as-written member | corrected member |
|---|---|---|---|---|---|---|
| code/src/server/server.cjs:57-62 | `return pdfParse(...).then(...)` inside `try` without `await`. The `catch` sees only synchronous throws, and a rejected parse promise fails the whole batch | a PDF attachment whose bytes decode but whose parse rejects, e.g. with "Invalid PDF structure" | `return await pdfParse(...)`, so that a failed PDF parse yields `""`, as the `catch` comment says | high; not executed | Extraction.PdfRejectionEscapes | Extraction.PdfNeverFailsWhenAwaited |

The PDF branch takes a `PdfPolicy` parameter, and so does the whole
pipeline:

- `AsWritten` is the server's behaviour, and every claim about the
  server's code is stated with it.
- `Awaited` is the intended behaviour. For it, `PdfNeverFailsWhenAwaited`,
  `AwaitedPdfAttachmentsNeverFail` and `CorruptPdfFailsBatch` prove that a
  PDF failure never fails the batch.
- All pipeline lemmas that do not name a policy hold for both.

=== FILE: classification.dfy ===
/** `classifyRequest`, `analyzeSentiment`, `classifyIntent`,
    `extractEntities` and `detectSpam`: one chat completion per task over
    the same email text, the answer trimmed, and for the two structured
    tasks decoded with `JSON.parse`. The language model and `JSON.parse`
    are oracles; the prompt templates are folded into the model oracle,
    which receives the task and the email text. */
module Classification {
  import opened Results
  import opened JsText
  import opened Effects
  import opened Json

  /** The external capabilities: one completion per (task, email text),
      standing for `response.choices[0].message.content` (a rejection, or a
      missing choice or content, is a failure), and `JSON.parse`. */
  datatype Llm = Llm(
    complete: (Task, string) -> Result<string>,
    parseJson: string -> Result<Json>)

  /** One task's answer: free text, or a decoded JSON value. */
  datatype Answer = Text(text: string) | Parsed(json: Json)

  /** The five answers of one email. */
  datatype Classification = Classification(
    request: Json, sentiment: string, intent: string, entities: Json, spam: string)

  /** The order in which the server issues the five requests. */
  const Order: seq<Task> := [Request, Sentiment, Intent, Entities, Spam]

  /** One task: ask, trim, and, for a structured task, decode. */
  function Query(llm: Llm, task: Task, text: string): (r: Traced<Answer>)
    ensures r.calls == [Ask(task, text)]
    ensures r.result.Success? ==> (r.result.value.Parsed? <==> task.Structured())
  {
    match llm.complete(task, text)
    case Failure(e) => Traced([Ask(task, text)], Failure(e))
    case Success(raw) =>
      var trimmed := Trim(raw);
      if task.Structured() then
        match llm.parseJson(trimmed)
        case Failure(e) => Traced([Ask(task, text)], Failure(e))
        case Success(v) => Traced([Ask(task, text)], Success(Parsed(v)))
      else Traced([Ask(task, text)], Success(Text(trimmed)))
  }

  predicate Answered(llm: Llm, task: Task, text: string) {
    Query(llm, task, text).result.Success?
  }

  /** A free-text answer is the trimmed completion verbatim, with no
      validation against any label set; a structured answer is the decoded
      trimmed completion, and one that does not decode fails with the
      decoder's error rather than a default. A failed completion fails the
      task. */
  lemma QueryAnswers(llm: Llm, task: Task, text: string)
    ensures llm.complete(task, text).Failure? ==>
              Query(llm, task, text).result == Failure(llm.complete(task, text).error)
    ensures llm.complete(task, text).Success? && !task.Structured() ==>
              Query(llm, task, text).result == Success(Text(Trim(llm.complete(task, text).value)))
    ensures llm.complete(task, text).Success? && task.Structured() ==>
              var decoded := llm.parseJson(Trim(llm.complete(task, text).value));
              Query(llm, task, text).result ==
                (if decoded.Success? then Success(Parsed(decoded.value)) else Failure(decoded.error))
  {
  }

  /** The requests for `tasks`, each on `text`, in order. */
  function Asks(tasks: seq<Task>, text: string): (r: seq<Call>)
    ensures |r| == |tasks|
    ensures forall i :: 0 <= i < |tasks| ==> r[i] == Ask(tasks[i], text)
    decreases |tasks|
  {
    if tasks == [] then [] else [Ask(tasks[0], text)] + Asks(tasks[1..], text)
  }

  /** Asking each task's question on `text`. */
  function Asker(llm: Llm, text: string): (f: Task -> Traced<Answer>)
    ensures forall t :: f(t) == Query(llm, t, text)
  {
    t => Query(llm, t, text)
  }

  /** The tasks issued one after another on the same text; the first
      failure ends the sequence and discards the earlier answers. */
  function QueryAll(llm: Llm, tasks: seq<Task>, text: string): (r: Traced<seq<Answer>>)
    ensures r.result.Success? <==> forall i :: 0 <= i < |tasks| ==> Answered(llm, tasks[i], text)
    ensures r.result.Success? ==>
              && r.calls == Asks(tasks, text)
              && |r.result.value| == |tasks|
              && forall i :: 0 <= i < |tasks| ==> r.result.value[i] == Query(llm, tasks[i], text).result.value
  {
    var r := Sequence(tasks, Asker(llm, text));
    if r.result.Success? then QueryCalls(llm, tasks, text); r else r
  }

  /** Each task makes exactly one request, on the same text. */
  lemma {:induction false} QueryCalls(llm: Llm, tasks: seq<Task>, text: string)
    ensures AllCalls(tasks, Asker(llm, text)) == Asks(tasks, text)
    decreases |tasks|
  {
    if tasks != [] {
      QueryCalls(llm, tasks[1..], text);
    }
  }

  /** When the sequence fails, it failed at the first unanswered task with
      that task's error, and the requests made are exactly those up to and
      including it: nothing after the failing task is asked. */
  lemma QueryAllFailure(llm: Llm, tasks: seq<Task>, text: string)
    requires QueryAll(llm, tasks, text).result.Failure?
    ensures FirstFailure(tasks, Asker(llm, text)) < |tasks|
    ensures Query(llm, tasks[FirstFailure(tasks, Asker(llm, text))], text).result
              == Failure(QueryAll(llm, tasks, text).result.error)
    ensures QueryAll(llm, tasks, text).calls == Asks(tasks[..FirstFailure(tasks, Asker(llm, text)) + 1], text)
  {
    var f := Asker(llm, text);
    var r := Sequence(tasks, f);
    assert QueryAll(llm, tasks, text) == r;
    SequenceFailure(tasks, f);
    var k := FirstFailure(tasks, f);
    assert f(tasks[k]) == Query(llm, tasks[k], text);
    QueryCalls(llm, tasks[..k], text);
    assert Asks([tasks[k]], text) == [Ask(tasks[k], text)];
    assert r.calls == Asks(tasks[..k], text) + Asks([tasks[k]], text);
    AsksAppend(tasks[..k], [tasks[k]], text);
    assert tasks[..k + 1] == tasks[..k] + [tasks[k]];
  }

  lemma {:induction false} AsksAppend(a: seq<Task>, b: seq<Task>, text: string)
    ensures Asks(a + b, text) == Asks(a, text) + Asks(b, text)
    decreases |a|
  {
    if a == [] {
      assert a + b == b;
    } else {
      assert (a + b)[1..] == a[1..] + b;
      AsksAppend(a[1..], b, text);
    }
  }

  lemma AsksInOrder(text: string)
    ensures Asks(Order, text) == [Ask(Request, text), Ask(Sentiment, text), Ask(Intent, text),
                                 Ask(Entities, text), Ask(Spam, text)]
  {
    var r := Asks(Order, text);
    assert |r| == 5;
    assert r[0] == Ask(Request, text) && r[1] == Ask(Sentiment, text) && r[2] == Ask(Intent, text);
    assert r[3] == Ask(Entities, text) && r[4] == Ask(Spam, text);
  }

  lemma AnsweredInOrder(llm: Llm, text: string)
    ensures Order[0] == Request && Order[1] == Sentiment && Order[2] == Intent
    ensures Order[3] == Entities && Order[4] == Spam
    ensures (forall i :: 0 <= i < |Order| ==> Answered(llm, Order[i], text)) <==>
              && Answered(llm, Request, text) && Answered(llm, Sentiment, text)
              && Answered(llm, Intent, text) && Answered(llm, Entities, text)
              && Answered(llm, Spam, text)
  {
    if Answered(llm, Request, text) && Answered(llm, Sentiment, text) && Answered(llm, Intent, text)
       && Answered(llm, Entities, text) && Answered(llm, Spam, text) {
      forall i | 0 <= i < |Order|
        ensures Answered(llm, Order[i], text)
      {
        assert i == 0 || i == 1 || i == 2 || i == 3 || i == 4;
      }
    }
  }

  /** The five tasks in their fixed order, spelled out: they succeed
      exactly when each is answered, and then make the five requests in
      order and give one answer per task. */
  lemma QueryOrder(llm: Llm, text: string)
    ensures var all := QueryAll(llm, Order, text);
            && (all.result.Success? <==>
                  && Answered(llm, Request, text) && Answered(llm, Sentiment, text)
                  && Answered(llm, Intent, text) && Answered(llm, Entities, text)
                  && Answered(llm, Spam, text))
            && (all.result.Success? ==>
                  && all.calls == [Ask(Request, text), Ask(Sentiment, text), Ask(Intent, text),
                                   Ask(Entities, text), Ask(Spam, text)]
                  && |all.result.value| == 5
                  && all.result.value[0] == Query(llm, Request, text).result.value
                  && all.result.value[1] == Query(llm, Sentiment, text).result.value
                  && all.result.value[2] == Query(llm, Intent, text).result.value
                  && all.result.value[3] == Query(llm, Entities, text).result.value
                  && all.result.value[4] == Query(llm, Spam, text).result.value)
  {
    AsksInOrder(text);
    AnsweredInOrder(llm, text);
  }

  /** `classifyRequest`, `analyzeSentiment`, `classifyIntent`,
      `extractEntities` and `detectSpam`, awaited in that order on the same
      text; every answer lands in its own field. */
  function ClassifyAll(llm: Llm, text: string): (r: Traced<Classification>)
    ensures r.result.Success? <==>
              && Answered(llm, Request, text) && Answered(llm, Sentiment, text)
              && Answered(llm, Intent, text) && Answered(llm, Entities, text)
              && Answered(llm, Spam, text)
    ensures r.result.Success? ==>
              r.calls == [Ask(Request, text), Ask(Sentiment, text), Ask(Intent, text),
                          Ask(Entities, text), Ask(Spam, text)]
  {
    var all := QueryAll(llm, Order, text);
    QueryOrder(llm, text);
    if all.result.Failure? then Traced(all.calls, Failure(all.result.error))
    else
      var answers := all.result.value;
      assert answers[0].Parsed? && answers[3].Parsed?;
      assert answers[1].Text? && answers[2].Text? && answers[4].Text?;
      Traced(all.calls, Success(Classification(
        answers[0].json, answers[1].text, answers[2].text, answers[3].json, answers[4].text)))
  }

  /** Every answer lands in its own field: the request classification
      and the entities are the decoded answers of their tasks, and the
      sentiment, intent and spam verdict are the trimmed answers of theirs. */
  lemma ClassifyAllFields(llm: Llm, text: string)
    requires ClassifyAll(llm, text).result.Success?
    ensures var c := ClassifyAll(llm, text).result.value;
            && Query(llm, Request, text).result == Success(Parsed(c.request))
            && Query(llm, Sentiment, text).result == Success(Text(c.sentiment))
            && Query(llm, Intent, text).result == Success(Text(c.intent))
            && Query(llm, Entities, text).result == Success(Parsed(c.entities))
            && Query(llm, Spam, text).result == Success(Text(c.spam))
  {
    AnsweredInOrder(llm, text);
    var all := QueryAll(llm, Order, text);
    var answers := all.result.value;
    assert answers[0] == Query(llm, Request, text).result.value;
    assert answers[1] == Query(llm, Sentiment, text).result.value;
    assert answers[2] == Query(llm, Intent, text).result.value;
    assert answers[3] == Query(llm, Entities, text).result.value;
    assert answers[4] == Query(llm, Spam, text).result.value;
  }

  /** A failed classification made the requests up to and including the
      first unanswered task, in the fixed order, and none after it. */
  lemma ClassifyAllFailure(llm: Llm, text: string)
    requires ClassifyAll(llm, text).result.Failure?
    ensures FirstFailure(Order, Asker(llm, text)) < |Order|
    ensures !Answered(llm, Order[FirstFailure(Order, Asker(llm, text))], text)
    ensures ClassifyAll(llm, text).calls == Asks(Order[..FirstFailure(Order, Asker(llm, text)) + 1], text)
  {
    QueryAllFailure(llm, Order, text);
  }
}

=== FILE: effects.dfy ===
/** The external calls the pipeline makes, and the shape every step of the
    model returns: the calls it made, in order, and its outcome. The calls
    are the observable side effects of the server (disk reads, extractor
    runs, round trips to the language model); the model records them so
    that order and "nothing else was invoked" can be stated. */
module Effects {
  import opened Results

  type Byte = bv8

  /** The payload `Buffer.from(content, 'base64')` produces. */
  type Bytes = seq<Byte>

  /** The five classification requests, in no particular order here. */
  datatype Task = Request | Sentiment | Intent | Entities | Spam {
    /** Tasks whose answer is decoded with `JSON.parse`. */
    predicate Structured() {
      this == Request || this == Entities
    }
  }

  /** One external call. */
  datatype Call =
    | DecodeEml(file: string)       // eml-parser over a read stream of the file
    | DecodeMsg(file: string)       // msgreader over the whole file
    | RunPdf(pdfInput: Bytes)       // pdf-parse
    | RunWord(wordInput: Bytes)     // mammoth.extractRawText
    | RunOcr(ocrInput: Bytes)       // tesseract.js, language 'eng'
    | Ask(task: Task, text: string) // one chat completion for one task

  /** How a call into a promise-returning library ends: it may throw before
      returning a promise, return a promise that rejects, or one that
      resolves. */
  datatype Async<+T> = Threw(thrown: Error) | Rejected(reason: Error) | Resolved(result: T)

  /** The calls a step made and what it produced. */
  datatype Traced<+T> = Traced(calls: seq<Call>, result: Result<T>)

  /** The calls of running `f` on every element of `xs`, in order. */
  function AllCalls<A, B>(xs: seq<A>, f: A -> Traced<B>): (r: seq<Call>)
    decreases |xs|
  {
    if xs == [] then [] else f(xs[0]).calls + AllCalls(xs[1..], f)
  }

  /** The position of the first element on which `f` fails, or `|xs|`. */
  function FirstFailure<A, B>(xs: seq<A>, f: A -> Traced<B>): (k: nat)
    ensures k <= |xs|
    ensures forall i :: 0 <= i < k ==> f(xs[i]).result.Success?
    ensures k < |xs| ==> f(xs[k]).result.Failure?
    decreases |xs|
  {
    if xs == [] then 0
    else if f(xs[0]).result.Failure? then 0
    else 1 + FirstFailure(xs[1..], f)
  }

  /** `f` awaited on each element in turn, collecting the results; the
      first failure abandons the rest and discards what was collected. */
  function Sequence<A, B>(xs: seq<A>, f: A -> Traced<B>): (r: Traced<seq<B>>)
    ensures r.result.Success? <==> forall i :: 0 <= i < |xs| ==> f(xs[i]).result.Success?
    ensures r.result.Success? ==>
              && |r.result.value| == |xs|
              && (forall i :: 0 <= i < |xs| ==> r.result.value[i] == f(xs[i]).result.value)
              && r.calls == AllCalls(xs, f)
    decreases |xs|
  {
    if xs == [] then Traced([], Success([]))
    else
      var first := f(xs[0]);
      var rest := Sequence(xs[1..], f);
      if first.result.Failure? then Traced(first.calls, Failure(first.result.error))
      else if rest.result.Failure? then Traced(first.calls + rest.calls, Failure(rest.result.error))
      else Traced(first.calls + rest.calls, Success([first.result.value] + rest.result.value))
  }

  /** A failed run failed on the first failing element, with its error,
      after making the calls of every earlier element and then that
      element's calls, and no call for any later element. */
  lemma {:induction false} SequenceFailure<A, B>(xs: seq<A>, f: A -> Traced<B>)
    requires Sequence(xs, f).result.Failure?
    ensures FirstFailure(xs, f) < |xs|
    ensures f(xs[FirstFailure(xs, f)]).result == Failure(Sequence(xs, f).result.error)
    ensures Sequence(xs, f).calls == AllCalls(xs[..FirstFailure(xs, f)], f) + f(xs[FirstFailure(xs, f)]).calls
    decreases |xs|
  {
    if f(xs[0]).result.Success? {
      SequenceFailure(xs[1..], f);
      var k := FirstFailure(xs[1..], f);
      assert xs[..k + 1][1..] == xs[1..][..k];
      assert xs[..k + 1][0] == xs[0];
    } else {
      assert xs[..0] == [];
    }
  }

  lemma {:induction false} AllCallsAppend<A, B>(xs: seq<A>, ys: seq<A>, f: A -> Traced<B>)
    ensures AllCalls(xs + ys, f) == AllCalls(xs, f) + AllCalls(ys, f)
    decreases |xs|
  {
    if xs == [] {
      assert xs + ys == ys;
    } else {
      assert (xs + ys)[1..] == xs[1..] + ys;
      AllCallsAppend(xs[1..], ys, f);
    }
  }
}

=== FILE: extraction.dfy ===
/** `extractAttachmentText`: dispatch on the attachment's declared content
    type to one of three extractors, with the PDF branch wrapped in a
    `try`/`catch` that returns the extractor's promise without awaiting it. */
module Extraction {
  import opened Results
  import opened JsText
  import opened Effects
  import opened Parsing

  /** The foreign code an extraction can reach: `Buffer.from(content,
      'base64')` (which throws synchronously when it fails) and the three
      promise-returning extractors, each including its `.then` that picks
      the text out of the library's result. */
  datatype Extractors = Extractors(
    toBuffer: string -> Result<Bytes>,
    pdf: Bytes -> Async<string>,
    word: Bytes -> Async<string>,
    ocr: Bytes -> Async<string>)

  /** Which branch of the dispatch a content type takes. */
  datatype Route = PdfRoute | WordRoute | ImageRoute | NoRoute

  /** How the PDF branch treats a rejected promise. `AsWritten` is the
      server's code (`return pdfParse(...)` inside `try`: only a synchronous
      throw reaches the `catch`); `Awaited` is the evidently intended
      `return await pdfParse(...)`, under which every PDF failure yields "". */
  datatype PdfPolicy = AsWritten | Awaited

  /** Reading `contentType.includes` on an absent content type throws. */
  const MissingContentType := Error("Cannot read properties of undefined (reading 'includes')")

  /** The dispatch tests, in the source's order. */
  function RouteOf(contentType: string): (r: Route)
  {
    if Includes(contentType, "pdf") then PdfRoute
    else if Includes(contentType, "msword") then WordRoute
    else if StartsWith(contentType, "image/") then ImageRoute
    else NoRoute
  }

  /** The precedence of the tests: "pdf" anywhere wins over everything,
      then "msword" anywhere, then an "image/" prefix; a type matching none
      of them has no extractor. */
  lemma RoutePrecedence(ct: string)
    ensures RouteOf(ct) == PdfRoute <==> Includes(ct, "pdf")
    ensures RouteOf(ct) == WordRoute <==> !Includes(ct, "pdf") && Includes(ct, "msword")
    ensures RouteOf(ct) == ImageRoute <==>
              !Includes(ct, "pdf") && !Includes(ct, "msword") && StartsWith(ct, "image/")
    ensures RouteOf(ct) == NoRoute <==>
              !Includes(ct, "pdf") && !Includes(ct, "msword") && !StartsWith(ct, "image/")
  {
  }

  /** An image type that also names PDF goes to the PDF extractor. */
  lemma PdfBeatsImage()
    ensures RouteOf("image/pdf") == PdfRoute
  {
    assert OccursAt("image/pdf", "pdf", 6);
  }

  lemma WordExample()
    ensures RouteOf("application/msword") == WordRoute
  {
    MissingCharNotIncluded("application/msword", "pdf", 'f');
    assert OccursAt("application/msword", "msword", 12);
  }

  /** The "image/" test is a case-sensitive prefix test. */
  lemma ImageExamples()
    ensures RouteOf("image/png") == ImageRoute
    ensures RouteOf("IMAGE/PNG") == NoRoute
  {
    MissingCharNotIncluded("image/png", "pdf", 'd');
    MissingCharNotIncluded("image/png", "msword", 'w');
    MissingCharNotIncluded("IMAGE/PNG", "pdf", 'd');
    MissingCharNotIncluded("IMAGE/PNG", "msword", 'w');
    assert "image/png"[..6] == "image/";
    assert "IMAGE/PNG"[..6][0] != "image/"[0];
  }

  /** One promise-returning extractor outside any `try`: a synchronous
      throw inside the async function and a rejection both reject the
      caller's promise. */
  function Awaiting(call: Call, outcome: Async<string>): (r: Traced<string>)
    ensures r.calls == [call]
    ensures r.result.Success? <==> outcome.Resolved?
    ensures outcome.Resolved? ==> r.result.value == outcome.result
  {
    match outcome
    case Resolved(t) => Traced([call], Success(t))
    case Rejected(e) => Traced([call], Failure(e))
    case Threw(e) => Traced([call], Failure(e))
  }

  /** The extractor call a route makes on the decoded payload `b`. */
  function RoutedCall(route: Route, b: Bytes): seq<Call> {
    match route
    case PdfRoute => [RunPdf(b)]
    case WordRoute => [RunWord(b)]
    case ImageRoute => [RunOcr(b)]
    case NoRoute => []
  }

  /** `extractAttachmentText(attachment)`. The routed extractor is called
      exactly when the content type names one and the payload decodes, and
      no other call is made; a resolved PDF parse yields its text whatever
      the `catch` does with failures. */
  function ExtractAttachmentText(a: Attachment, x: Extractors, policy: PdfPolicy): (r: Traced<string>)
    ensures |r.calls| <= 1
    ensures r.calls == if a.contentType.Some? && x.toBuffer(a.content).Success?
                       then RoutedCall(RouteOf(a.contentType.value), x.toBuffer(a.content).value)
                       else []
    ensures a.contentType.None? ==> r == Traced([], Failure(MissingContentType))
    ensures a.contentType.Some? && RouteOf(a.contentType.value) == PdfRoute
            && x.toBuffer(a.content).Success? && x.pdf(x.toBuffer(a.content).value).Resolved? ==>
              r.result == Success(x.pdf(x.toBuffer(a.content).value).result)
  {
    match a.contentType
    case None => Traced([], Failure(MissingContentType))
    case Some(ct) =>
      match RouteOf(ct)
      case NoRoute => Traced([], Success(""))
      case PdfRoute =>
        (match x.toBuffer(a.content)
         case Failure(_) => Traced([], Success(""))
         case Success(b) =>
           (match x.pdf(b)
            case Resolved(t) => Traced([RunPdf(b)], Success(t))
            case Threw(_) => Traced([RunPdf(b)], Success(""))
            case Rejected(e) =>
              if policy == Awaited then Traced([RunPdf(b)], Success(""))
              else Traced([RunPdf(b)], Failure(e))))
      case WordRoute =>
        (match x.toBuffer(a.content)
         case Failure(e) => Traced([], Failure(e))
         case Success(b) => Awaiting(RunWord(b), x.word(b)))
      case ImageRoute =>
        (match x.toBuffer(a.content)
         case Failure(e) => Traced([], Failure(e))
         case Success(b) => Awaiting(RunOcr(b), x.ocr(b)))
  }

  /** A content type matching no test yields "" and invokes no extractor,
      whatever the extractors would do. */
  lemma UnsupportedTypeIsEmpty(a: Attachment, x: Extractors, policy: PdfPolicy)
    requires a.contentType.Some? && RouteOf(a.contentType.value) == NoRoute
    ensures ExtractAttachmentText(a, x, policy) == Traced([], Success(""))
  {
  }

  /** The only extractor a call ever reaches is the one its route names,
      and it is handed the decoded payload. */
  lemma OnlyRoutedExtractorRuns(a: Attachment, x: Extractors, policy: PdfPolicy, c: Call)
    requires c in ExtractAttachmentText(a, x, policy).calls
    ensures a.contentType.Some?
    ensures x.toBuffer(a.content).Success?
    ensures c.RunPdf? ==> RouteOf(a.contentType.value) == PdfRoute && c.pdfInput == x.toBuffer(a.content).value
    ensures c.RunWord? ==> RouteOf(a.contentType.value) == WordRoute && c.wordInput == x.toBuffer(a.content).value
    ensures c.RunOcr? ==> RouteOf(a.contentType.value) == ImageRoute && c.ocrInput == x.toBuffer(a.content).value
    ensures !c.DecodeEml? && !c.DecodeMsg? && !c.Ask?
  {
  }

  /** The PDF branch as written: a synchronous throw (from the base64
      decoding or from pdf-parse itself) is caught and yields "", but a
      rejected promise escapes the `try` and fails the extraction. */
  lemma PdfCatchesOnlySyncThrows(a: Attachment, x: Extractors)
    requires a.contentType.Some? && RouteOf(a.contentType.value) == PdfRoute
    ensures x.toBuffer(a.content).Failure? ==> ExtractAttachmentText(a, x, AsWritten).result == Success("")
    ensures x.toBuffer(a.content).Success? && x.pdf(x.toBuffer(a.content).value).Threw? ==>
              ExtractAttachmentText(a, x, AsWritten).result == Success("")
    ensures x.toBuffer(a.content).Success? && x.pdf(x.toBuffer(a.content).value).Rejected? ==>
              ExtractAttachmentText(a, x, AsWritten).result == Failure(x.pdf(x.toBuffer(a.content).value).reason)
  {
  }

  /** Counterexample to the intent of the PDF `catch`: a payload that
      decodes but whose parse promise rejects fails the extraction. */
  lemma PdfRejectionEscapes()
    ensures var x := Extractors(
              c => Success([]), b => Rejected(Error("Invalid PDF structure")),
              b => Resolved(""), b => Resolved(""));
            ExtractAttachmentText(Attachment(Some("application/pdf"), ""), x, AsWritten).result.Failure?
  {
    assert OccursAt("application/pdf", "pdf", 12);
  }

  /** With the promise awaited inside the `try`, as the `catch` comment
      intends, a PDF attachment never fails its extraction. */
  lemma PdfNeverFailsWhenAwaited(a: Attachment, x: Extractors)
    requires a.contentType.Some? && RouteOf(a.contentType.value) == PdfRoute
    ensures ExtractAttachmentText(a, x, Awaited).result.Success?
    ensures ExtractAttachmentText(a, x, Awaited).result.value ==
              if x.toBuffer(a.content).Success? && x.pdf(x.toBuffer(a.content).value).Resolved?
              then x.pdf(x.toBuffer(a.content).value).result else ""
  {
  }

  /** Word and image extraction never swallow a failure: the extraction
      succeeds exactly when the payload decodes and the extractor resolves,
      and then yields the extractor's text. */
  lemma WordFailuresPropagate(a: Attachment, x: Extractors, policy: PdfPolicy)
    requires a.contentType.Some? && RouteOf(a.contentType.value) == WordRoute
    ensures ExtractAttachmentText(a, x, policy).result.Success? <==>
              x.toBuffer(a.content).Success? && x.word(x.toBuffer(a.content).value).Resolved?
    ensures ExtractAttachmentText(a, x, policy).result.Success? ==>
              ExtractAttachmentText(a, x, policy).result.value == x.word(x.toBuffer(a.content).value).result
  {
  }

  lemma ImageFailuresPropagate(a: Attachment, x: Extractors, policy: PdfPolicy)
    requires a.contentType.Some? && RouteOf(a.contentType.value) == ImageRoute
    ensures ExtractAttachmentText(a, x, policy).result.Success? <==>
              x.toBuffer(a.content).Success? && x.ocr(x.toBuffer(a.content).value).Resolved?
    ensures ExtractAttachmentText(a, x, policy).result.Success? ==>
              ExtractAttachmentText(a, x, policy).result.value == x.ocr(x.toBuffer(a.content).value).result
  {
  }
}

=== FILE: js_text.dfy ===
/** The JavaScript string built-ins the server relies on: `endsWith`,
    `startsWith`, `includes`, `trim`, and the `||` operator on strings
    (where the empty string is falsy). */
module JsText {
  import opened Results

  // ---------------------------------------------------------------------
  // Prefix and suffix tests
  // ---------------------------------------------------------------------

  /** `s.startsWith(p)`. */
  predicate StartsWith(s: string, p: string) {
    |p| <= |s| && s[..|p|] == p
  }

  /** `s.endsWith(x)`. */
  predicate EndsWith(s: string, x: string) {
    |x| <= |s| && s[|s| - |x|..] == x
  }

  // ---------------------------------------------------------------------
  // Substring search
  // ---------------------------------------------------------------------

  /** `t` occurs in `s` starting at index `i`. */
  predicate OccursAt(s: string, t: string, i: int) {
    0 <= i && i + |t| <= |s| && s[i..i + |t|] == t
  }

  /** `s.includes(t)`: some start position of `s` begins an occurrence. */
  predicate Includes(s: string, t: string) {
    exists i | 0 <= i <= |s| - |t| :: OccursAt(s, t, i)
  }

  /** `t` is absent from `s` when one of its characters is. */
  lemma MissingCharNotIncluded(s: string, t: string, c: char)
    requires c in t && c !in s
    ensures !Includes(s, t)
  {
  }

  // ---------------------------------------------------------------------
  // Truthiness of strings and `||`
  // ---------------------------------------------------------------------

  /** A string-valued property is truthy when present and non-empty. */
  predicate Truthy(o: Option<string>) {
    o.Some? && o.value != ""
  }

  /** `a || b` on two possibly absent strings. */
  function Or(a: Option<string>, b: Option<string>): (r: Option<string>)
    ensures Truthy(r) <==> Truthy(a) || Truthy(b)
    ensures Truthy(a) ==> r == a
    ensures !Truthy(a) ==> r == b
  {
    if Truthy(a) then a else b
  }

  /** `a || d` with a string literal `d` as the last alternative. */
  function OrElse(a: Option<string>, d: string): (r: string)
    ensures d != "" ==> r != ""
    ensures Truthy(a) ==> r == a.value
    ensures !Truthy(a) ==> r == d
  {
    if Truthy(a) then a.value else d
  }

  // ---------------------------------------------------------------------
  // String.prototype.trim
  // ---------------------------------------------------------------------

  /** ECMAScript WhiteSpace and LineTerminator code points, the set that
      `trim` strips: TAB, VT, FF, SP, NBSP, ZWNBSP, the space separators
      (Zs) and LF, CR, LS, PS. */
  predicate IsJsSpace(c: char) {
    || c == '\U{0009}' || c == '\U{000B}' || c == '\U{000C}' || c == '\U{0020}'
    || c == '\U{00A0}' || c == '\U{FEFF}' || c == '\U{1680}'
    || ('\U{2000}' <= c <= '\U{200A}') || c == '\U{202F}' || c == '\U{205F}'
    || c == '\U{3000}'
    || c == '\U{000A}' || c == '\U{000D}' || c == '\U{2028}' || c == '\U{2029}'
  }

  ghost predicate AllSpace(s: string) {
    forall k :: 0 <= k < |s| ==> IsJsSpace(s[k])
  }

  /** Neither end of `s` is a white-space character. */
  ghost predicate Trimmed(s: string) {
    s == [] || (!IsJsSpace(s[0]) && !IsJsSpace(s[|s| - 1]))
  }

  function TrimStart(s: string): (r: string)
    decreases |s|
  {
    if |s| > 0 && IsJsSpace(s[0]) then TrimStart(s[1..]) else s
  }

  function TrimEnd(s: string): (r: string)
    decreases |s|
  {
    if |s| > 0 && IsJsSpace(s[|s| - 1]) then TrimEnd(s[..|s| - 1]) else s
  }

  /** `s.trim()`. */
  function Trim(s: string): (r: string)
  {
    TrimEnd(TrimStart(s))
  }

  /** Where `trimStart` cuts: everything before `i` is white space, and
      the character at `i`, if any, is not. */
  lemma {:induction false} TrimStartCut(s: string) returns (i: nat)
    ensures i <= |s| && TrimStart(s) == s[i..]
    ensures forall k :: 0 <= k < i ==> IsJsSpace(s[k])
    ensures i < |s| ==> !IsJsSpace(s[i])
    decreases |s|
  {
    if |s| > 0 && IsJsSpace(s[0]) {
      var rest := TrimStartCut(s[1..]);
      assert s[1..][rest..] == s[rest + 1..];
      i := rest + 1;
      forall k | 0 <= k < i ensures IsJsSpace(s[k]) {
        if k > 0 {
          assert s[k] == s[1..][k - 1];
        }
      }
    } else {
      i := 0;
    }
  }

  /** Where `trimEnd` cuts: everything from `j` on is white space, and the
      character before `j`, if any, is not. */
  lemma {:induction false} TrimEndCut(s: string) returns (j: nat)
    ensures j <= |s| && TrimEnd(s) == s[..j]
    ensures forall k :: j <= k < |s| ==> IsJsSpace(s[k])
    ensures 0 < j ==> !IsJsSpace(s[j - 1])
    decreases |s|
  {
    if |s| > 0 && IsJsSpace(s[|s| - 1]) {
      var p := s[..|s| - 1];
      j := TrimEndCut(p);
      assert p[..j] == s[..j];
      forall k | j <= k < |s| ensures IsJsSpace(s[k]) {
        if k < |s| - 1 {
          assert s[k] == p[k];
        }
      }
    } else {
      j := |s|;
      assert s[..|s|] == s;
    }
  }

  /** The positions `trim` cuts at: everything before `i` and from `j` on
      is white space, and what is kept neither starts nor ends with it. */
  lemma TrimBounds(s: string) returns (i: nat, j: nat)
    ensures i <= j <= |s| && Trim(s) == s[i..j]
    ensures forall k :: 0 <= k < i ==> IsJsSpace(s[k])
    ensures forall k :: j <= k < |s| ==> IsJsSpace(s[k])
    ensures i < j ==> !IsJsSpace(s[i]) && !IsJsSpace(s[j - 1])
  {
    i := TrimStartCut(s);
    var u := s[i..];
    var b := TrimEndCut(u);
    j := i + b;
    assert u[..b] == s[i..j];
    forall k | j <= k < |s| ensures IsJsSpace(s[k]) {
      assert s[k] == u[k - i];
    }
    if i < j {
      assert s[j - 1] == u[b - 1];
    }
  }

  /** `trim` cuts only white space, from both ends, and leaves a string
      that neither starts nor ends with white space. */
  lemma TrimSpec(s: string)
    ensures exists i, j :: 0 <= i <= j <= |s| && Trim(s) == s[i..j]
                          && AllSpace(s[..i]) && AllSpace(s[j..])
    ensures Trimmed(Trim(s))
  {
    var i, j := TrimBounds(s);
    assert AllSpace(s[..i]);
    assert AllSpace(s[j..]) by {
      forall k | 0 <= k < |s[j..]| ensures IsJsSpace(s[j..][k]) {
        assert s[j..][k] == s[j + k];
      }
    }
    if i < j {
      assert Trim(s)[0] == s[i];
      assert Trim(s)[|Trim(s)| - 1] == s[j - 1];
    }
  }

  /** White space around a trimmed core is exactly what `trim` removes. */
  lemma {:induction false} TrimRecoversCore(a: string, m: string, b: string)
    requires AllSpace(a) && AllSpace(b) && Trimmed(m)
    ensures Trim(a + m + b) == m
  {
    TrimStartPrefix(a, m + b);
    assert a + m + b == a + (m + b);
    if m == [] {
      assert m + b == b;
      TrimStartAllSpace(b);
      assert TrimStart(a + m + b) == [];
    } else {
      assert TrimStart(m + b) == m + b;
    }
    TrimEndSuffix(m, b);
  }

  lemma {:induction false} TrimStartPrefix(a: string, rest: string)
    requires AllSpace(a)
    ensures TrimStart(a + rest) == TrimStart(rest)
    decreases |a|
  {
    if a != [] {
      assert (a + rest)[1..] == a[1..] + rest;
      TrimStartPrefix(a[1..], rest);
    } else {
      assert a + rest == rest;
    }
  }

  lemma {:induction false} TrimStartAllSpace(b: string)
    requires AllSpace(b)
    ensures TrimStart(b) == []
    decreases |b|
  {
    if b != [] {
      TrimStartAllSpace(b[1..]);
    }
  }

  lemma {:induction false} TrimEndSuffix(m: string, b: string)
    requires AllSpace(b) && Trimmed(m)
    ensures TrimEnd(m + b) == m
    decreases |b|
  {
    if b == [] {
      assert m + b == m;
    } else {
      var p := m + b[..|b| - 1];
      assert (m + b)[..|m + b| - 1] == p;
      TrimEndSuffix(m, b[..|b| - 1]);
    }
  }
}

=== FILE: json.dfy ===
/** The values `JSON.parse` produces, and which own properties an object
    spread `{...v}` copies out of each of them. */
module Json {

  /** A parsed JSON value. Numbers are carried as their source text: the
      model makes no numeric claims (the confidence score is one). */
  datatype Json =
    | JNull
    | JBool(b: bool)
    | JNumber(literal: string)
    | JString(s: string)
    | JArray(items: seq<Json>)
    | JObject(fields: map<string, Json>)

  /** The canonical decimal text of an array index, the property key under
      which JavaScript exposes element `n`. */
  function IndexKey(n: nat): (r: string)
    ensures IsIndexKey(r)
    decreases n
  {
    if n < 10 then [Digit(n)] else IndexKey(n / 10) + [Digit(n % 10)]
  }

  function Digit(d: nat): (c: char)
    requires d < 10
    ensures '0' <= c <= '9'
  {
    "0123456789"[d]
  }

  /** A property key made of decimal digits only. */
  predicate IsIndexKey(k: string) {
    k != [] && forall i :: 0 <= i < |k| ==> '0' <= k[i] <= '9'
  }

  /** The properties `0`, `1`, ... holding `values` in order. */
  function Indexed(values: seq<Json>): (m: map<string, Json>)
    ensures forall k :: k in m ==> IsIndexKey(k)
    ensures |values| > 0 ==> IndexKey(|values| - 1) in m
    decreases |values|
  {
    if values == [] then map[]
    else Indexed(values[..|values| - 1])[IndexKey(|values| - 1) := values[|values| - 1]]
  }

  /** Every position of an indexed sequence has its key. */
  lemma {:induction false} IndexedHasIndex(values: seq<Json>, i: nat)
    requires i < |values|
    ensures IndexKey(i) in Indexed(values)
    decreases |values|
  {
    var n := |values| - 1;
    if i < n {
      IndexedHasIndex(values[..n], i);
      assert Indexed(values) == Indexed(values[..n])[IndexKey(n) := values[n]];
    }
  }

  /** Every key of an indexed sequence is the key of one of its positions. */
  lemma {:induction false} IndexedKeyNamesIndex(values: seq<Json>, k: string) returns (i: nat)
    requires k in Indexed(values)
    ensures i < |values| && k == IndexKey(i)
    decreases |values|
  {
    var n := |values| - 1;
    if k == IndexKey(n) {
      i := n;
    } else {
      i := IndexedKeyNamesIndex(values[..n], k);
    }
  }

  /** The own enumerable properties `{...v}` copies: an object's fields; an
      array's elements and a string's characters under their index keys;
      nothing from `null`, a boolean or a number. */
  function Spread(v: Json): (m: map<string, Json>)
  {
    match v
    case JObject(fields) => fields
    case JArray(items) => Indexed(items)
    case JString(s) => Indexed(seq(|s|, i requires 0 <= i < |s| => JString([s[i]])))
    case _ => map[]
  }

  /** Only an object can contribute a key that is not an array index, so
      only an object can override a named field. */
  lemma SpreadOfNonObject(v: Json)
    requires !v.JObject?
    ensures forall k :: k in Spread(v) ==> IsIndexKey(k)
  {
  }
}

=== FILE: listing.dfy ===
/** `getEmailFiles`: the directory listing filtered down to the two
    supported container formats, by extension and case-sensitively. */
module Listing {
  import opened JsText

  const EmlExtension := ".eml"
  const MsgExtension := ".msg"

  predicate IsEmailFile(name: string) {
    EndsWith(name, EmlExtension) || EndsWith(name, MsgExtension)
  }

  /** The names of `entries` kept by the filter, in listing order. */
  function EmailFiles(entries: seq<string>): (r: seq<string>)
    ensures forall k :: 0 <= k < |r| ==> IsEmailFile(r[k])
    ensures |r| <= |entries|
  {
    if entries == [] then []
    else
      var rest := EmailFiles(entries[1..]);
      if IsEmailFile(entries[0]) then [entries[0]] + rest else rest
  }

  /** Every supported name of the listing is kept, as often as it occurs
      there, and no other name is. */
  lemma {:induction false} EmailFilesContents(entries: seq<string>)
    ensures forall n :: multiset(EmailFiles(entries))[n] == if IsEmailFile(n) then multiset(entries)[n] else 0
    decreases |entries|
  {
    if entries != [] {
      EmailFilesContents(entries[1..]);
      assert entries == [entries[0]] + entries[1..];
      assert multiset(entries) == multiset{entries[0]} + multiset(entries[1..]);
    }
  }

  /** The filter distributes over concatenation of listings, so the kept
      names of an earlier part of the listing come before those of a later
      part: listing order is preserved and nothing is inserted. */
  lemma {:induction false} EmailFilesAppend(a: seq<string>, b: seq<string>)
    ensures EmailFiles(a + b) == EmailFiles(a) + EmailFiles(b)
    decreases |a|
  {
    if a == [] {
      assert a + b == b;
    } else {
      assert (a + b)[1..] == a[1..] + b;
      EmailFilesAppend(a[1..], b);
    }
  }

  /** Together with `EmailFilesAppend` this pins the filter down: one name
      is kept exactly when it ends in `.eml` or `.msg`. */
  lemma EmailFilesSingle(n: string)
    ensures EmailFiles([n]) == if IsEmailFile(n) then [n] else []
  {
    assert [n][1..] == [];
  }

  /** The extensions are matched case-sensitively. */
  lemma UpperCaseExtensionExcluded()
    ensures EmailFiles(["a.EML", "b.eml", "c.msg", "d.MSG", "e.txt", "f.eml.bak"]) == ["b.eml", "c.msg"]
  {
    var l := ["a.EML", "b.eml", "c.msg", "d.MSG", "e.txt", "f.eml.bak"];
    assert !IsEmailFile("a.EML") by { assert "a.EML"[1..] != EmlExtension; }
    assert IsEmailFile("b.eml") by { assert "b.eml"[1..] == EmlExtension; }
    assert IsEmailFile("c.msg") by { assert "c.msg"[1..] == MsgExtension; }
    assert !IsEmailFile("d.MSG") by { assert "d.MSG"[1..] != MsgExtension; }
    assert !IsEmailFile("e.txt") by { assert "e.txt"[1..] != MsgExtension; }
    assert !IsEmailFile("f.eml.bak") by { assert "f.eml.bak"[5..] != MsgExtension; }
    assert EmailFiles(l[5..]) == [];
    assert EmailFiles(l[4..]) == [];
    assert EmailFiles(l[3..]) == [];
    assert EmailFiles(l[2..]) == ["c.msg"];
    assert EmailFiles(l[1..]) == ["b.eml", "c.msg"];
  }

  /** The filter as the source writes it: one pass over the listing. */
  method GetEmailFiles(entries: seq<string>) returns (r: seq<string>)
    ensures r == EmailFiles(entries)
  {
    r := [];
    var i := 0;
    while i < |entries|
      invariant 0 <= i <= |entries|
      invariant r == EmailFiles(entries[..i])
    {
      EmailFilesAppend(entries[..i], [entries[i]]);
      EmailFilesSingle(entries[i]);
      assert entries[..i + 1] == entries[..i] + [entries[i]];
      if IsEmailFile(entries[i]) {
        r := r + [entries[i]];
      }
      i := i + 1;
    }
    assert entries[..i] == entries;
  }
}

=== FILE: parsing.dfy ===
/** `parseEml` and `parseMsg`: the decoded message of either container
    format normalised into one document shape, with JavaScript `||`
    defaults for absent or empty fields. The decoders themselves
    (eml-parser, msgreader, the file reads) are not modelled: their outcome
    is the input. */
module Parsing {
  import opened Results
  import opened JsText

  /** One attachment as the decoders hand it over: a declared content type
      (absent for some decoders) and the payload. */
  datatype Attachment = Attachment(contentType: Option<string>, content: string)

  /** The fields of the object eml-parser resolves with. */
  datatype EmlMessage = EmlMessage(
    subject: Option<string>,
    text: Option<string>,
    html: Option<string>,
    attachments: Option<seq<Attachment>>)

  /** The fields of msgreader's `getFileData()`. */
  datatype MsgMessage = MsgMessage(
    subject: Option<string>,
    body: Option<string>,
    attachments: Option<seq<Attachment>>)

  /** The normalised document both parsers return. */
  datatype Email = Email(subject: string, body: string, attachments: seq<Attachment>)

  const NoSubject := "No Subject"
  const NoBody := "No Body"
  const EmlErrorPrefix := "Failed to parse EML file: "

  /** `attachments || []`. */
  function AttachmentsOrEmpty(a: Option<seq<Attachment>>): (r: seq<Attachment>)
    ensures a.Some? ==> r == a.value
    ensures a.None? ==> r == []
  {
    if a.Some? then a.value else []
  }

  /** `parseEml` given the outcome of `parser.parseEml()`: a decoder
      failure is re-thrown with the fixed prefix, a decoded message is
      normalised. */
  function ParseEml(decoded: Result<EmlMessage>): (r: Result<Email>)
    ensures r.Failure? <==> decoded.Failure?
    ensures r.Failure? ==> r.error.message == EmlErrorPrefix + decoded.error.message
    ensures r.Success? ==> r.value.subject != "" && r.value.body != ""
    ensures r.Success? && decoded.value.attachments.Some? ==>
              r.value.attachments == decoded.value.attachments.value
    ensures r.Success? && decoded.value.attachments.None? ==> r.value.attachments == []
  {
    match decoded
    case Failure(e) => Failure(Error(EmlErrorPrefix + e.message))
    case Success(m) =>
      Success(Email(
        OrElse(m.subject, NoSubject),
        OrElse(Or(m.text, m.html), NoBody),
        AttachmentsOrEmpty(m.attachments)))
  }

  /** `parseMsg` given the outcome of reading and decoding the file: any
      error escapes unchanged, a decoded message is normalised. */
  function ParseMsg(decoded: Result<MsgMessage>): (r: Result<Email>)
    ensures r.Failure? <==> decoded.Failure?
    ensures r.Failure? ==> r.error == decoded.error
    ensures r.Success? ==> r.value.subject != "" && r.value.body != ""
    ensures r.Success? && decoded.value.attachments.Some? ==>
              r.value.attachments == decoded.value.attachments.value
    ensures r.Success? && decoded.value.attachments.None? ==> r.value.attachments == []
  {
    match decoded
    case Failure(e) => Failure(e)
    case Success(m) =>
      Success(Email(
        OrElse(m.subject, NoSubject),
        OrElse(m.body, NoBody),
        AttachmentsOrEmpty(m.attachments)))
  }

  /** The subject of an EML document is the source subject when that is
      non-empty and exactly "No Subject" otherwise; an empty subject counts
      as absent. */
  lemma EmlSubjectDefault(m: EmlMessage)
    ensures ParseEml(Success(m)).value.subject ==
            if m.subject.Some? && m.subject.value != "" then m.subject.value else NoSubject
    ensures m.subject == Some("") ==> ParseEml(Success(m)).value.subject == NoSubject
  {
  }

  /** The body of an EML document is the plain text, else the HTML, else
      "No Body", each alternative skipped when absent or empty. */
  lemma EmlBodyDefault(m: EmlMessage)
    ensures Truthy(m.text) ==> ParseEml(Success(m)).value.body == m.text.value
    ensures !Truthy(m.text) && Truthy(m.html) ==> ParseEml(Success(m)).value.body == m.html.value
    ensures !Truthy(m.text) && !Truthy(m.html) ==> ParseEml(Success(m)).value.body == NoBody
  {
  }

  /** The MSG document keeps a non-empty subject and body and falls back to
      the sentinels otherwise; a missing attachment list is empty. */
  lemma MsgDefaults(m: MsgMessage)
    ensures ParseMsg(Success(m)).value.subject == if Truthy(m.subject) then m.subject.value else NoSubject
    ensures ParseMsg(Success(m)).value.body == if Truthy(m.body) then m.body.value else NoBody
    ensures ParseMsg(Success(m)).value.attachments == if m.attachments.Some? then m.attachments.value else []
  {
  }

  /** A decoder failure produces no document, and its message survives
      after the prefix, for any decoder message. */
  lemma EmlFailureWrapped(e: Error)
    ensures ParseEml(Failure(e)) == Failure(Error("Failed to parse EML file: " + e.message))
  {
  }
}

=== FILE: pipeline.dfy ===
/** The `/process-emails` handler without its transport: list the folder,
    then for each email file in turn parse it, extract every attachment's
    text, join the texts to the body, ask the five classification
    questions and assemble one record; any failure anywhere turns the whole
    response into one generic error. */
module Pipeline {
  import opened Results
  import opened JsText
  import opened Effects
  import opened Listing
  import opened Parsing
  import opened Extraction
  import opened Classification
  import opened Records

  /** Everything the handler reaches outside its own code: the two
      container decoders (each given the file name in the email folder),
      the attachment extractors and the language model. */
  datatype Env = Env(
    readEml: string -> Result<EmlMessage>,
    readMsg: string -> Result<MsgMessage>,
    extractors: Extractors,
    llm: Llm)

  /** What the handler sends: the records, or the generic error body. */
  datatype Response = Analyses(records: seq<Record>) | ServerError(error: string)

  /** The response together with every external call made to produce it. */
  datatype Served = Served(calls: seq<Call>, response: Response)

  const ServerFailure := "Failed to process emails"

  // ---------------------------------------------------------------------
  // One file
  // ---------------------------------------------------------------------

  /** The parser is chosen by extension alone: `.eml` files go to
      `parseEml`, every other listed file to `parseMsg`. Both produce a
      non-empty subject and body. */
  function ParseFile(name: string, env: Env): (r: Traced<Email>)
    ensures r.calls == if EndsWith(name, EmlExtension) then [DecodeEml(name)] else [DecodeMsg(name)]
    ensures r.result == if EndsWith(name, EmlExtension) then ParseEml(env.readEml(name))
                        else ParseMsg(env.readMsg(name))
    ensures r.result.Success? ==> r.result.value.subject != "" && r.result.value.body != ""
  {
    if EndsWith(name, EmlExtension) then Traced([DecodeEml(name)], ParseEml(env.readEml(name)))
    else Traced([DecodeMsg(name)], ParseMsg(env.readMsg(name)))
  }

  /** A listed file that does not end in `.eml` ends in `.msg`, so the
      `parseMsg` branch only ever sees MSG files. */
  lemma ListedNonEmlIsMsg(entries: seq<string>, i: nat)
    requires i < |EmailFiles(entries)| && !EndsWith(EmailFiles(entries)[i], EmlExtension)
    ensures EndsWith(EmailFiles(entries)[i], MsgExtension)
  {
  }

  /** The text of the attachments after the body: each one preceded by a
      newline. */
  function Separated(texts: seq<string>): string
    decreases |texts|
  {
    if texts == [] then "" else "\n" + texts[0] + Separated(texts[1..])
  }

  /** The text handed to every classifier. */
  function EmailText(body: string, texts: seq<string>): string {
    body + Separated(texts)
  }

  /** Appending one attachment text appends a newline and that text, which
      is what the handler's `emailText += "\n" + text` does. */
  lemma {:induction false} SeparatedSnoc(texts: seq<string>, t: string)
    ensures Separated(texts + [t]) == Separated(texts) + "\n" + t
    decreases |texts|
  {
    if texts == [] {
      assert texts + [t] == [t];
    } else {
      assert (texts + [t])[1..] == texts[1..] + [t];
      SeparatedSnoc(texts[1..], t);
    }
  }

  /** Without attachments the classifier input is the body itself. */
  lemma NoAttachmentsTextIsBody(body: string)
    ensures EmailText(body, []) == body
  {
  }

  /** The handler's loop over the extracted texts. */
  method AccumulateText(body: string, texts: seq<string>) returns (text: string)
    ensures text == EmailText(body, texts)
  {
    text := body;
    var i := 0;
    while i < |texts|
      invariant 0 <= i <= |texts|
      invariant text == body + Separated(texts[..i])
    {
      SeparatedSnoc(texts[..i], texts[i]);
      assert texts[..i + 1] == texts[..i] + [texts[i]];
      text := text + "\n" + texts[i];
      i := i + 1;
    }
    assert texts[..i] == texts;
  }

  /** Extracting one attachment under `policy`. */
  function Extractor(x: Extractors, policy: PdfPolicy): (f: Attachment -> Traced<string>)
    ensures forall a :: f(a) == ExtractAttachmentText(a, x, policy)
  {
    a => ExtractAttachmentText(a, x, policy)
  }

  /** One iteration of the handler's loop: parse, extract each attachment
      in order, classify the joined text, assemble the record. */
  function ProcessFile(name: string, env: Env, policy: PdfPolicy): (r: Traced<Record>)
    ensures |r.calls| >= 1 && r.calls[0] == ParseFile(name, env).calls[0]
    ensures r.result.Success? <==>
              && ParseFile(name, env).result.Success?
              && var email := ParseFile(name, env).result.value;
                 var extracted := Sequence(email.attachments, Extractor(env.extractors, policy));
                 && extracted.result.Success?
                 && ClassifyAll(env.llm, EmailText(email.body, extracted.result.value)).result.Success?
  {
    var parsed := ParseFile(name, env);
    if parsed.result.Failure? then Traced(parsed.calls, Failure(parsed.result.error))
    else
      var email := parsed.result.value;
      var extracted := Sequence(email.attachments, Extractor(env.extractors, policy));
      if extracted.result.Failure? then
        Traced(parsed.calls + extracted.calls, Failure(extracted.result.error))
      else
        var classified := ClassifyAll(env.llm, EmailText(email.body, extracted.result.value));
        var calls := parsed.calls + extracted.calls + classified.calls;
        if classified.result.Failure? then Traced(calls, Failure(classified.result.error))
        else Traced(calls, Success(Assemble(email.subject, classified.result.value)))
  }

  /** A processed file: its record carries the parsed subject unless the
      classification overrides it, and the five classifier answers for the
      body joined with every attachment's extracted text, in attachment
      order; the calls are the decoding, the extractions in attachment
      order, then the five requests in their fixed order on that text. */
  lemma ProcessFileSuccess(name: string, env: Env, policy: PdfPolicy)
    requires ProcessFile(name, env, policy).result.Success?
    ensures var email := ParseFile(name, env).result.value;
            var f := Extractor(env.extractors, policy);
            var texts := Sequence(email.attachments, f).result.value;
            var text := EmailText(email.body, texts);
            var r := ProcessFile(name, env, policy);
            && Sequence(email.attachments, f).result.Success?
            && |texts| == |email.attachments|
            && (forall i :: 0 <= i < |texts| ==>
                  ExtractAttachmentText(email.attachments[i], env.extractors, policy).result == Success(texts[i]))
            && ClassifyAll(env.llm, text).result.Success?
            && r.result.value == Assemble(email.subject, ClassifyAll(env.llm, text).result.value)
            && r.calls == ParseFile(name, env).calls + AllCalls(email.attachments, f)
                          + [Ask(Request, text), Ask(Sentiment, text), Ask(Intent, text),
                             Ask(Entities, text), Ask(Spam, text)]
  {
    var parsed := ParseFile(name, env);
    var email := parsed.result.value;
    var f := Extractor(env.extractors, policy);
    var extracted := Sequence(email.attachments, f);
    assert extracted.result.Success?;
    var text := EmailText(email.body, extracted.result.value);
    var classified := ClassifyAll(env.llm, text);
    assert classified.result.Success?;
    assert ProcessFile(name, env, policy) ==
           Traced(parsed.calls + extracted.calls + classified.calls,
                  Success(Assemble(email.subject, classified.result.value)));
  }

  /** A failed file stops at its failing step: a failed parse made only the
      decode call, a failed extraction made the decode and the extractions
      up to the failing one, and only a failed classification asked any
      question. */
  lemma ProcessFileFailureCalls(name: string, env: Env, policy: PdfPolicy)
    requires ProcessFile(name, env, policy).result.Failure?
    ensures var r := ProcessFile(name, env, policy);
            var p := ParseFile(name, env);
            && (p.result.Failure? ==> r.calls == p.calls)
            && (p.result.Success? ==>
                  var ex := Sequence(p.result.value.attachments, Extractor(env.extractors, policy));
                  && (ex.result.Failure? ==> r.calls == p.calls + ex.calls)
                  && (ex.result.Success? ==>
                        r.calls == p.calls + ex.calls
                                   + ClassifyAll(env.llm, EmailText(p.result.value.body, ex.result.value)).calls))
  {
  }

  // ---------------------------------------------------------------------
  // The batch
  // ---------------------------------------------------------------------

  function FileProcessor(env: Env, policy: PdfPolicy): (f: string -> Traced<Record>)
    ensures forall n :: f(n) == ProcessFile(n, env, policy)
  {
    n => ProcessFile(n, env, policy)
  }

  predicate AllProcessed(names: seq<string>, env: Env, policy: PdfPolicy) {
    forall i :: 0 <= i < |names| ==> ProcessFile(names[i], env, policy).result.Success?
  }

  /** The files processed one after another, the records appended in
      listing order. */
  function ProcessAll(names: seq<string>, env: Env, policy: PdfPolicy): (r: Traced<seq<Record>>)
    ensures r.result.Success? <==> AllProcessed(names, env, policy)
    ensures r.result.Success? ==>
              && |r.result.value| == |names|
              && forall i :: 0 <= i < |names| ==>
                   r.result.value[i] == ProcessFile(names[i], env, policy).result.value
  {
    Sequence(names, FileProcessor(env, policy))
  }

  /** The handler: list, process, and answer with the records or with the
      generic error, whatever went wrong and wherever. */
  function ProcessEmails(listing: Result<seq<string>>, env: Env, policy: PdfPolicy): (s: Served)
    ensures s.response.ServerError? ==> s.response.error == ServerFailure
    ensures listing.Failure? ==> s == Served([], ServerError(ServerFailure))
    ensures listing.Success? ==>
              (s.response.Analyses? <==> AllProcessed(EmailFiles(listing.value), env, policy))
    ensures listing.Success? && s.response.Analyses? ==>
              var files := EmailFiles(listing.value);
              && |s.response.records| == |files|
              && (forall i :: 0 <= i < |files| ==>
                    s.response.records[i] == ProcessFile(files[i], env, policy).result.value)
              && s.calls == AllCalls(files, FileProcessor(env, policy))
  {
    match listing
    case Failure(_) => Served([], ServerError(ServerFailure))
    case Success(entries) =>
      var files := EmailFiles(entries);
      var run := ProcessAll(files, env, policy);
      if run.result.Success? then Served(run.calls, Analyses(run.result.value))
      else Served(run.calls, ServerError(ServerFailure))
  }

  /** All or nothing: when a file fails, the response is the generic error
      (no records at all), the files before it were processed in full, the
      failing file's calls end the run, and no later file is even opened. */
  lemma ProcessEmailsFailure(entries: seq<string>, env: Env, policy: PdfPolicy)
    requires ProcessEmails(Success(entries), env, policy).response.ServerError?
    ensures var files := EmailFiles(entries);
            var f := FileProcessor(env, policy);
            var k := FirstFailure(files, f);
            && k < |files|
            && (forall i :: 0 <= i < k ==> ProcessFile(files[i], env, policy).result.Success?)
            && ProcessFile(files[k], env, policy).result.Failure?
            && ProcessEmails(Success(entries), env, policy).calls
                 == AllCalls(files[..k], f) + ProcessFile(files[k], env, policy).calls
  {
    SequenceFailure(EmailFiles(entries), FileProcessor(env, policy));
  }

  /** With the PDF promise awaited inside the `try`, attachments that all
      route to the PDF extractor never fail a file's extraction stage. */
  lemma AwaitedPdfAttachmentsNeverFail(atts: seq<Attachment>, x: Extractors)
    requires forall i :: 0 <= i < |atts| ==>
               atts[i].contentType.Some? && RouteOf(atts[i].contentType.value) == PdfRoute
    ensures Sequence(atts, Extractor(x, Awaited)).result.Success?
  {
    forall i | 0 <= i < |atts|
      ensures ExtractAttachmentText(atts[i], x, Awaited).result.Success?
    {
      PdfNeverFailsWhenAwaited(atts[i], x);
    }
  }
}

=== FILE: records.dfy ===
/** The per-email result object
    `{ subject, ...classification, sentiment, intent, entities, spamStatus }`:
    later properties override earlier ones with the same key. The record is
    a key-to-value map; property order is not modelled. */
module Records {
  import opened Json
  import opened Classification

  type Record = map<string, Json>

  const SubjectKey := "subject"
  const SentimentKey := "sentiment"
  const IntentKey := "intent"
  const EntitiesKey := "entities"
  const SpamKey := "spamStatus"

  /** The four keys written after the spread, which nothing overrides. */
  predicate IsTrailingKey(k: string) {
    k == SentimentKey || k == IntentKey || k == EntitiesKey || k == SpamKey
  }

  /** The object literal, property by property. */
  function Assemble(subject: string, c: Classification): (r: Record)
    ensures r.Keys == {SubjectKey} + Spread(c.request).Keys + {SentimentKey, IntentKey, EntitiesKey, SpamKey}
    ensures r[SentimentKey] == JString(c.sentiment) && r[IntentKey] == JString(c.intent)
    ensures r[EntitiesKey] == c.entities && r[SpamKey] == JString(c.spam)
    ensures r[SubjectKey] == if SubjectKey in Spread(c.request) then Spread(c.request)[SubjectKey] else JString(subject)
    ensures forall k :: k in Spread(c.request) && !IsTrailingKey(k) ==> r[k] == Spread(c.request)[k]
  {
    (map[SubjectKey := JString(subject)] + Spread(c.request))
      [SentimentKey := JString(c.sentiment)]
      [IntentKey := JString(c.intent)]
      [EntitiesKey := c.entities]
      [SpamKey := JString(c.spam)]
  }

  /** A classification that is not a JSON object (an array, a string, a
      number, a boolean or null) adds only array-index keys, so the parsed
      subject survives and no named field is overridden. */
  lemma NonObjectKeepsSubject(subject: string, c: Classification)
    requires !c.request.JObject?
    ensures Assemble(subject, c)[SubjectKey] == JString(subject)
    ensures forall k :: k in Assemble(subject, c) && !IsIndexKey(k) ==>
              k == SubjectKey || IsTrailingKey(k)
  {
    SpreadOfNonObject(c.request);
    assert !IsIndexKey(SubjectKey) by { assert SubjectKey[0] == 's'; }
  }

  /** A `subject` key in the classification object overrides the parsed
      subject, while a `sentiment` key there is overridden in turn. */
  lemma ClassificationOverridesSubject(subject: string, c: Classification, s: Json, x: Json)
    requires c.request == JObject(map[SubjectKey := s, SentimentKey := x])
    ensures Assemble(subject, c)[SubjectKey] == s
    ensures Assemble(subject, c)[SentimentKey] == JString(c.sentiment)
  {
  }
}

=== FILE: results.dfy ===
/** Option and Result wrappers shared by the model, plus the JavaScript `Error`
    value that the server code throws, catches and re-wraps. */
module Results {

  /** A possibly absent JavaScript property (`undefined` is `None`). */
  datatype Option<+T> = None | Some(value: T)

  /** The outcome of a step that can throw: a value or the thrown error. */
  datatype Result<+T> = Success(value: T) | Failure(error: Error)

  /** A JavaScript `Error`; only its `message` is ever read. */
  datatype Error = Error(message: string)
}

=== FILE: scenarios.dfy ===
/** Whole-handler runs over small, fixed folders, with stub decoders,
    extractors and a stub language model returning canned answers. */
module Scenarios {
  import opened Results
  import opened JsText
  import opened Effects
  import opened Listing
  import opened Parsing
  import opened Extraction
  import opened Json
  import opened Classification
  import opened Records
  import opened Pipeline

  const RequestJson := "{\"requestType\": \"Address Change\"}"

  /** Canned completions, with the stray white space a model adds. */
  function CannedAnswer(t: Task): string {
    match t
    case Request => " " + RequestJson + "\n"
    case Sentiment => "Positive\n"
    case Intent => " Query"
    case Entities => "{}"
    case Spam => "Not spam"
  }

  /** `JSON.parse` for the two canned structured answers. */
  function CannedParse(s: string): Result<Json> {
    if s == RequestJson then Success(JObject(map["requestType" := JString("Address Change")]))
    else if s == "{}" then Success(JObject(map[]))
    else Failure(Error("Unexpected token"))
  }

  function CannedLlm(): Llm {
    Llm((t, text) => Success(CannedAnswer(t)), CannedParse)
  }

  function NoExtractors(): Extractors {
    Extractors(c => Success([]), b => Resolved(""), b => Resolved(""), b => Resolved(""))
  }

  lemma CannedTrims()
    ensures Trim(CannedAnswer(Request)) == RequestJson
    ensures Trim(CannedAnswer(Sentiment)) == "Positive"
    ensures Trim(CannedAnswer(Intent)) == "Query"
    ensures Trim(CannedAnswer(Entities)) == "{}"
    ensures Trim(CannedAnswer(Spam)) == "Not spam"
  {
    TrimRecoversCore(" ", RequestJson, "\n");
    TrimRecoversCore("", "Positive", "\n");
    TrimRecoversCore(" ", "Query", "");
    TrimRecoversCore("", "{}", "");
    TrimRecoversCore("", "Not spam", "");
    assert "" + "Positive" + "\n" == CannedAnswer(Sentiment);
    assert " " + "Query" + "" == CannedAnswer(Intent);
    assert "" + "{}" + "" == CannedAnswer(Entities);
    assert "" + "Not spam" + "" == CannedAnswer(Spam);
  }

  /** The canned model classifies any text the same way, after the five
      requests in their fixed order. */
  lemma CannedClassification(text: string)
    ensures ClassifyAll(CannedLlm(), text) ==
              Traced([Ask(Request, text), Ask(Sentiment, text), Ask(Intent, text),
                      Ask(Entities, text), Ask(Spam, text)],
                     Success(CannedResult()))
  {
    var llm := CannedLlm();
    CannedTrims();
    QueryAnswers(llm, Request, text);
    QueryAnswers(llm, Sentiment, text);
    QueryAnswers(llm, Intent, text);
    QueryAnswers(llm, Entities, text);
    QueryAnswers(llm, Spam, text);
    ClassifyAllFields(llm, text);
  }

  function CannedResult(): Classification {
    Classification(
      JObject(map["requestType" := JString("Address Change")]), "Positive", "Query", JObject(map[]), "Not spam")
  }

  /** A folder whose EML files decode to `subject`, an empty plain-text
      part, the HTML part `html` and no attachment list. */
  function OneEmlEnv(subject: string, html: string): Env {
    Env(
      n => Success(EmlMessage(Some(subject), Some(""), Some(html), None)),
      n => Failure(Error("not reached")),
      NoExtractors(), CannedLlm())
  }

  function CannedRecord(subject: string): Record {
    map[
      "subject" := JString(subject),
      "requestType" := JString("Address Change"),
      "sentiment" := JString("Positive"),
      "intent" := JString("Query"),
      "entities" := JObject(map[]),
      "spamStatus" := JString("Not spam")]
  }

  function CannedCalls(name: string, text: string): seq<Call> {
    [DecodeEml(name)] +
    [Ask(Request, text), Ask(Sentiment, text), Ask(Intent, text), Ask(Entities, text), Ask(Spam, text)]
  }

  /** An EML file without attachments whose plain text is empty: the body
      falls back to the HTML part, which is then the whole classifier
      input, and the record holds the parsed subject and the trimmed
      canned answers. */
  lemma OneEmlFile(name: string, subject: string, html: string)
    requires EndsWith(name, ".eml") && subject != "" && html != ""
    ensures ProcessFile(name, OneEmlEnv(subject, html), AsWritten) ==
              Traced(CannedCalls(name, html), Success(CannedRecord(subject)))
  {
    OneEmlCalls(name, subject, html);
    OneEmlResult(name, subject, html);
    CannedAssembled(subject);
  }

  /** The steps of `ProcessFile` for such a file: decoded, nothing to
      extract, classified on the HTML part. */
  lemma OneEmlSteps(name: string, subject: string, html: string)
    requires EndsWith(name, ".eml") && subject != "" && html != ""
    ensures var env := OneEmlEnv(subject, html);
            && ParseFile(name, env) == Traced([DecodeEml(name)], Success(Email(subject, html, [])))
            && Sequence([], Extractor(env.extractors, AsWritten)) == Traced([], Success([]))
            && EmailText(html, []) == html
  {
  }

  lemma OneEmlCalls(name: string, subject: string, html: string)
    requires EndsWith(name, ".eml") && subject != "" && html != ""
    ensures ProcessFile(name, OneEmlEnv(subject, html), AsWritten).calls == CannedCalls(name, html)
  {
    OneEmlSteps(name, subject, html);
    CannedClassification(html);
  }

  lemma OneEmlResult(name: string, subject: string, html: string)
    requires EndsWith(name, ".eml") && subject != "" && html != ""
    ensures ProcessFile(name, OneEmlEnv(subject, html), AsWritten).result == Success(Assemble(subject, CannedResult()))
  {
    OneEmlSteps(name, subject, html);
    CannedClassification(html);
  }

  lemma CannedAssembled(subject: string)
    ensures Assemble(subject, CannedResult()) == CannedRecord(subject)
  {
    var r := Assemble(subject, CannedResult());
    assert r.Keys == CannedRecord(subject).Keys;
  }

  /** One EML file among other files: the batch holds exactly that file's
      record, and the other file is never opened. */
  lemma OneEmlNoAttachments(subject: string, html: string)
    requires subject != "" && html != ""
    ensures ProcessEmails(Success(["notes.txt", "a.eml"]), OneEmlEnv(subject, html), AsWritten) ==
              Served(CannedCalls("a.eml", html), Analyses([CannedRecord(subject)]))
  {
    var env := OneEmlEnv(subject, html);
    assert EmailFiles(["notes.txt", "a.eml"]) == ["a.eml"] by {
      assert "notes.txt"[6..] != ".msg";
      assert "notes.txt"[5..] != ".eml";
      assert "a.eml"[1..] == ".eml";
    }
    OneEmlFile("a.eml", subject, html);
    assert AllCalls(["a.eml"], FileProcessor(env, AsWritten)) == CannedCalls("a.eml", html);
  }

  /** An MSG file whose read throws (`readFileSync` on a file that is
      gone), listed first, fails the whole batch with the generic error,
      and the EML file after it is never opened. */
  lemma ThrowingMsgDecoderFailsBatch()
    ensures var env := Env(
              n => Success(EmlMessage(Some("s"), Some("b"), None, None)),
              n => Failure(Error("ENOENT: no such file or directory, open 'b.msg'")),
              NoExtractors(), CannedLlm());
            ProcessEmails(Success(["b.msg", "a.eml"]), env, AsWritten) ==
              Served([DecodeMsg("b.msg")], ServerError("Failed to process emails"))
  {
    assert EmailFiles(["b.msg", "a.eml"]) == ["b.msg", "a.eml"] by {
      assert "b.msg"[1..] == ".msg";
      assert "a.eml"[1..] == ".eml";
    }
    assert !EndsWith("b.msg", EmlExtension) by { assert "b.msg"[1..] != ".eml"; }
  }

  /** A folder whose EML files carry one attachment of type `ct` that
      decodes but whose PDF parse promise rejects. */
  function CorruptPdfEnv(ct: string): Env {
    Env(
      n => Success(EmlMessage(Some("s"), Some("b"), None, Some([Attachment(Some(ct), "JVBERi0=")]))),
      n => Failure(Error("not reached")),
      Extractors(c => Success([]), b => Rejected(Error("Invalid PDF structure")),
                 b => Resolved(""), b => Resolved("")),
      CannedLlm())
  }

  /** As written, one corrupt PDF attachment fails the whole batch; with
      the promise awaited inside the `try`, the same folder is analysed. */
  lemma CorruptPdfFailsBatch(ct: string)
    requires RouteOf(ct) == PdfRoute
    ensures ProcessEmails(Success(["a.eml"]), CorruptPdfEnv(ct), AsWritten).response == ServerError(ServerFailure)
    ensures ProcessEmails(Success(["a.eml"]), CorruptPdfEnv(ct), Awaited).response.Analyses?
  {
    var env := CorruptPdfEnv(ct);
    assert EmailFiles(["a.eml"]) == ["a.eml"] by { assert "a.eml"[1..] == ".eml"; }
    assert EndsWith("a.eml", EmlExtension) by { assert "a.eml"[1..] == ".eml"; }
    var a := Attachment(Some(ct), "JVBERi0=");
    assert ParseFile("a.eml", env).result == Success(Email("s", "b", [a]));
    assert ExtractAttachmentText(a, env.extractors, AsWritten).result.Failure?;
    assert !ProcessFile("a.eml", env, AsWritten).result.Success?;
    assert ExtractAttachmentText(a, env.extractors, Awaited).result == Success("");
    var ex := Sequence([a], Extractor(env.extractors, Awaited));
    assert ex.result.Success? && |ex.result.value| == 1 && ex.result.value[0] == "";
    assert ex.result.value == [""];
    CannedClassification(EmailText("b", [""]));
    assert ProcessFile("a.eml", env, Awaited).result.Success?;
  }
}
